=== FILE: README.md ===
# CustomImageLoader — a Dafny model of the image-resolution chain

This project models the core of an Android image loader. `ImageLoader.loadImage` resolves a URL to a bitmap. It tries an in-memory LRU cache first, then a disk cache, then the network, and it stops at the first hit. A disk hit is copied into memory. A network hit is written to disk and then put in memory. The model also covers the small pure functions around that chain: the disk file name (`String.hashCode` rendered in decimal), how the network fetcher maps a response or an exception to a bitmap or null, the catalog client's mapping from HTTP status and exception to `DataError.Network`, and the thumbnail URL builder that produces the cache keys.

Everything is modelled with immutable datatypes and pure functions. The loader is one step over the state `(memory, disk)`. Everything outside the code is an oracle passed in with the call: the HTTP exchange's outcome, the image codec and the outcome of the file write.

Modules, one per source concern:

- `Jvm`: nullable values (`Nullable`), the exception classes that the `catch` clauses tell apart (`Throwable`), and how a call finishes (`Outcome`: it returns or it throws).
- `Bitmaps`: bitmaps, bytes, and the PNG codec as an oracle. `Lossless(codec)` says that decoding an encoding gives the bitmap back.
- `JavaString`: UTF-16 code units and `String.hashCode`, with the 32-bit wrap-around written out. It is proved equal to the documented closed form `s[0]*31^(n-1) + ... + s[n-1]` taken modulo 2^32.
- `JavaInt`: `Int.toString()`, together with a parser as its partner. Parsing a rendering gives the number back, so file names are equal exactly when hash codes are equal.
- `LruCache`: `androidx.collection.LruCache` with the default `sizeOf` of 1 per entry. It is a map plus a recency list. Its partner is an independent reference: the history of accesses.
- `ImageCache`: `CACHE_SIZE` and the memory tier.
- `DiskCache`: the cache directory as a map from file name to bytes.
- `NetworkUtils`: `downloadBitmapFromNetwork`.
- `ImageLoader`: `loadImage`.
- `HttpClientExt`: `responseToResult` and `safeCall`.
- `ImageResponse`: `Thumbnail.getImageUrl`.

Where the code differs from what its comments or a caller would suggest, the model follows the code:

- The memory budget `20 * 1024 * 1024` is commented as 20MiB (ImageCache.kt line 10). It is handed to an `LruCache` that does not override `sizeOf`, so it bounds the number of entries (`EvictionIgnoresBitmapSize`).
- A caller would reasonably expect a failed disk write to cost only the disk copy, with the downloaded image still returned. In the code, the `IOException` from `saveBitmapToDisk` reaches `loadImage`'s `catch`, so the call answers null and memory is not filled (`DiskWriteFailureYieldsNull`).

## Model

| member | source | states |
|---|---|---|
| JavaString.CodeUnits | app/src/main/java/me/iamsahil/customimageloader/image_loader/DiskCache.kt:22 | a character is stored as one UTF-16 unit equal to its code point when it lies in the Basic Multilingual Plane; otherwise it is stored as a high and a low surrogate that decode back to the character |
| JavaString.Utf16 | app/src/main/java/me/iamsahil/customimageloader/image_loader/DiskCache.kt:22 | the code units a JVM string holds for a URL, which `hashCode` iterates over, are all 16-bit values, with at least one per character |
| JavaString.HashCode | app/src/main/java/me/iamsahil/customimageloader/image_loader/DiskCache.kt:22 | the hash of a URL is always a 32-bit signed `int` |
| JavaString.ComputeHashCode | app/src/main/java/me/iamsahil/customimageloader/image_loader/DiskCache.kt:22 | the `hashCode` loop (h = 31*h + unit over UTF-16 units, wrapping) yields an `int` equal to the closed-form polynomial in base 31 truncated to 32 bits |
| JavaString.HashUnitsIsPolynomial | app/src/main/java/me/iamsahil/customimageloader/image_loader/DiskCache.kt:22 | wrapping at every step gives the same hash as evaluating the base-31 polynomial exactly and wrapping once |
| JavaString.HashCodeIsPolynomial | app/src/main/java/me/iamsahil/customimageloader/image_loader/DiskCache.kt:22 | a URL's hash is s[0]*31^(n-1) + ... + s[n-1] over its UTF-16 units, in `int` arithmetic |
| JavaString.Utf16OfBmp | app/src/main/java/me/iamsahil/customimageloader/image_loader/DiskCache.kt:22 | a URL whose characters all lie in the Basic Multilingual Plane is hashed one code unit per character |
| JavaString.EmptyHashIsZero | app/src/main/java/me/iamsahil/customimageloader/image_loader/DiskCache.kt:22 | the empty URL hashes to 0 |
| JavaString.AaAndBBCollide | app/src/main/java/me/iamsahil/customimageloader/image_loader/DiskCache.kt:22 | the distinct URLs "Aa" and "BB" have the same hash, 2112 |
| JavaInt.ToString | app/src/main/java/me/iamsahil/customimageloader/image_loader/DiskCache.kt:22 | the rendering of a hash is non-empty, starts with '-' exactly for negative numbers, is otherwise made of digits, and has no leading zero |
| JavaInt.ParseToString | app/src/main/java/me/iamsahil/customimageloader/image_loader/DiskCache.kt:22 | the decimal rendering of a hash can be read back to the same number |
| JavaInt.ToStringInjective | app/src/main/java/me/iamsahil/customimageloader/image_loader/DiskCache.kt:22 | two hashes give the same file name exactly when they are equal |
| JavaInt.ZeroRendersAsZero | app/src/main/java/me/iamsahil/customimageloader/image_loader/DiskCache.kt:22 | hash 0 gives the file name "0" |
| LruCache.Empty | app/src/main/java/me/iamsahil/customimageloader/image_loader/ImageCache.kt:11 | a newly constructed LRU map with positive capacity is empty and satisfies the cache invariant |
| LruCache.Touch | app/src/main/java/me/iamsahil/customimageloader/image_loader/ImageCache.kt:11 | an access moves the key to the most-recent end (or appends it), keeps every other key in its relative order, and keeps keys distinct |
| LruCache.Get | app/src/main/java/me/iamsahil/customimageloader/image_loader/ImageCache.kt:13 | `get` answers a value exactly when the URL is cached, and that value is the cached bitmap; it never changes any mapping; a hit makes the URL most recent; a miss answers null and changes nothing |
| LruCache.TrimToSize | app/src/main/java/me/iamsahil/customimageloader/image_loader/ImageCache.kt:11 | trimming shrinks the cache to at most its capacity by evicting from the least-recently-used end only |
| LruCache.Put | app/src/main/java/me/iamsahil/customimageloader/image_loader/ImageCache.kt:15-17 | `put` keeps the invariant and stores the bitmap as the URL's value and most recent entry; other URLs keep their bitmaps; if the URL was cached or there was room, no URL is lost; otherwise only the eldest is evicted |
| LruCache.PutWithinCapacity | app/src/main/java/me/iamsahil/customimageloader/image_loader/ImageCache.kt:15-17 | replacing a cached URL, or adding one while there is room, evicts nothing |
| LruCache.PutOverCapacity | app/src/main/java/me/iamsahil/customimageloader/image_loader/ImageCache.kt:15-17 | adding a new URL to a full cache evicts exactly the eldest entry, which is never the new URL |
| LruCache.EntryCount | app/src/main/java/me/iamsahil/customimageloader/image_loader/ImageCache.kt:10-11 | with every entry weighing 1, the cache size is the number of entries, so that number never exceeds the capacity |
| LruCache.ApplyBounded | app/src/main/java/me/iamsahil/customimageloader/image_loader/ImageCache.kt:10-17 | after any sequence of `get`s and `put`s, the number of entries is within capacity |
| LruCache.GetAfterPut | app/src/main/java/me/iamsahil/customimageloader/image_loader/ImageCache.kt:13-17 | after `put(url, b)`, any operations that do not put `url` again leave `get(url)` answering `b`, unless `url` was evicted |
| LruCache.Step | app/src/main/java/me/iamsahil/customimageloader/image_loader/ImageCache.kt:13-17 | any single `get` or `put` keeps the invariant and changes no URL's bitmap except the one that `put` stores |
| LruCache.StaysMapped | app/src/main/java/me/iamsahil/customimageloader/image_loader/ImageCache.kt:13-17 | a URL still cached after operations that never put it again keeps the bitmap it had |
| LruCache.EvictedStaysOut | app/src/main/java/me/iamsahil/customimageloader/image_loader/ImageCache.kt:13-17 | an absent URL stays absent until it is put again, so `get` never brings it back |
| LruCache.GetRecords | app/src/main/java/me/iamsahil/customimageloader/image_loader/ImageCache.kt:13 | the recency list orders keys by their last access in the history, and a `get` hit counts as an access |
| LruCache.PutRecords | app/src/main/java/me/iamsahil/customimageloader/image_loader/ImageCache.kt:15-17 | a `put` counts as an access: the recency list stays ordered by last access |
| LruCache.PutEvictsLeastRecentlyUsed | app/src/main/java/me/iamsahil/customimageloader/image_loader/ImageCache.kt:11-17 | when a `put` overflows a full cache, the evicted URL is the one accessed least recently; every other URL was accessed later and survives |
| ImageCache.NewImageCache | app/src/main/java/me/iamsahil/customimageloader/image_loader/ImageCache.kt:10-11 | the memory tier starts empty with capacity exactly 20971520 |
| ImageCache.PutNeverExceedsCacheSize | app/src/main/java/me/iamsahil/customimageloader/image_loader/ImageCache.kt:10-17 | after any `put` the memory tier holds at most `CACHE_SIZE` entries |
| ImageCache.PutExistingKeepsCount | app/src/main/java/me/iamsahil/customimageloader/image_loader/ImageCache.kt:15-17 | putting a URL that is already cached does not change the number of entries |
| ImageCache.EvictionIgnoresBitmapSize | app/src/main/java/me/iamsahil/customimageloader/image_loader/ImageCache.kt:10-11 | which URLs a `put` keeps, and in what recency order, does not depend on the bitmap, so the budget counts entries and not bytes |
| DiskCache.FileName | app/src/main/java/me/iamsahil/customimageloader/image_loader/DiskCache.kt:22 | the one file name used by both read and save is a decimal numeral that reads back as exactly the URL's hash code |
| DiskCache.SameFileIffSameHash | app/src/main/java/me/iamsahil/customimageloader/image_loader/DiskCache.kt:22 | two URLs address the same file exactly when their hash codes are equal |
| DiskCache.EmptyUrlFileName | app/src/main/java/me/iamsahil/customimageloader/image_loader/DiskCache.kt:22 | the empty URL is stored in file "0" |
| DiskCache.GetBitmapFromDisk | app/src/main/java/me/iamsahil/customimageloader/image_loader/DiskCache.kt:21-24 | a missing file reads as absent; a present file reads as exactly what the decoder makes of its bytes, so a file that decodes is returned and one that does not reads as absent |
| DiskCache.SaveBitmapToDisk | app/src/main/java/me/iamsahil/customimageloader/image_loader/DiskCache.kt:32-35 | saving replaces the URL's file with the PNG encoding and touches no other file; a failed open changes nothing and throws; a failing close of the stream leaves a prefix of the encoding and throws |
| DiskCache.ReadAfterSave | app/src/main/java/me/iamsahil/customimageloader/image_loader/DiskCache.kt:21-35 | with a lossless codec, reading a URL after saving `b` gives `b` |
| DiskCache.CollidingUrlsShareFile | app/src/main/java/me/iamsahil/customimageloader/image_loader/DiskCache.kt:21-35 | a URL whose hash code equals that of a saved URL reads the saved URL's bitmap |
| DiskCache.AaAndBBShareFile | app/src/main/java/me/iamsahil/customimageloader/image_loader/DiskCache.kt:22 | "Aa" and "BB" both map to file "2112" |
| NetworkUtils.DownloadBitmapFromNetwork | app/src/main/java/me/iamsahil/customimageloader/image_loader/NetworkUtils.kt:29-43 | no `IOException` escapes; any other exception propagates unchanged; a non-2xx status, an `IOException` or a null body gives null; the answer is a bitmap exactly when a 2xx body decodes, and it is the decoded bitmap |
| ImageLoader.LoadImage | app/src/main/java/me/iamsahil/customimageloader/image_loader/ImageLoader.kt:20-34 | the network is consulted exactly when memory and disk both miss; without a fetch the disk is unchanged and the answer is a bitmap; every non-null answer is left cached in memory under the URL; a null or thrown answer leaves memory as it was; no `IOException` escapes |
| ImageLoader.MemoryHit | app/src/main/java/me/iamsahil/customimageloader/image_loader/ImageLoader.kt:21 | a memory hit answers the cached bitmap with no fetch, leaves the disk and all mappings unchanged, and makes the URL most recent |
| ImageLoader.DiskHitPromotes | app/src/main/java/me/iamsahil/customimageloader/image_loader/ImageLoader.kt:21-22 | after a memory miss, a disk hit answers the disk bitmap with no fetch and memory then maps the URL to it |
| ImageLoader.NetworkHitPopulatesBoth | app/src/main/java/me/iamsahil/customimageloader/image_loader/ImageLoader.kt:23-28 | if both tiers miss and the download succeeds, the answer is the bitmap, the disk holds its encoding under the URL's file name (so a later disk read hits), and memory maps the URL to it |
| ImageLoader.NetworkMissChangesNothing | app/src/main/java/me/iamsahil/customimageloader/image_loader/ImageLoader.kt:25-28 | if both tiers miss and the download yields null, the answer is null and neither tier changes |
| ImageLoader.DiskWriteFailureYieldsNull | app/src/main/java/me/iamsahil/customimageloader/image_loader/ImageLoader.kt:24-32 | an `IOException` from the disk write makes the answer null and leaves memory unchanged, because `put` comes after the write |
| ImageLoader.SecondLoadIsMemoryHit | app/src/main/java/me/iamsahil/customimageloader/image_loader/ImageLoader.kt:21-28 | after any non-null answer, loading the same URL again is a memory hit with the same bitmap, whatever the network would do |
| ImageLoader.CollisionServesOtherBitmap | app/src/main/java/me/iamsahil/customimageloader/image_loader/ImageLoader.kt:21-22 | a URL not in memory whose hash code matches an already saved URL is served that URL's bitmap without a fetch, and that bitmap is then cached under the new URL |
| ImageLoader.BBServedFromAaFile | app/src/main/java/me/iamsahil/customimageloader/image_loader/ImageLoader.kt:21-28 | once "Aa" is loaded from the network, the first load of "BB" is answered from "Aa"'s file without a fetch |
| HttpClientExt.ResponseToResult | app/src/main/java/me/iamsahil/customimageloader/util/HttpClientExt.kt:80-91 | the result is Success exactly when the status is 200..299 and the body reads, and it carries that body; every other status is an error without reading the body; an exception from reading the body escapes |
| HttpClientExt.StatusClassification | app/src/main/java/me/iamsahil/customimageloader/util/HttpClientExt.kt:81-90 | in both directions: 401, 408, 409, 413 and 429 map to UNAUTHORIZED, REQUEST_TIMEOUT, CONFLICT, PAYLOAD_TOO_LARGE and TOO_MANY_REQUESTS; 500..599 maps to SERVER_ERROR; every other non-2xx status maps to UNKNOWN |
| HttpClientExt.ClassifyException | app/src/main/java/me/iamsahil/customimageloader/util/HttpClientExt.kt:49-61 | an unresolved address maps to NO_INTERNET and a serialization exception to SERIALIZATION; a cancellation, or a throwable that is not an `Exception`, is rethrown; everything else maps to UNKNOWN |
| HttpClientExt.SafeCall | app/src/main/java/me/iamsahil/customimageloader/util/HttpClientExt.kt:48-64 | exceptions are classified only when they come from `execute()`; the status mapping runs only when `execute()` returns normally |
| HttpClientExt.CancellationIsRethrown | app/src/main/java/me/iamsahil/customimageloader/util/HttpClientExt.kt:57-58 | a cancellation is rethrown and never turned into an error value |
| HttpClientExt.DeserializationFailureEscapes | app/src/main/java/me/iamsahil/customimageloader/util/HttpClientExt.kt:48-64 | as written, a 200 response whose body fails to deserialise makes `safeCall` throw instead of answering SERIALIZATION |
| HttpClientExt.SafeCallCatchingBody | app/src/main/java/me/iamsahil/customimageloader/util/HttpClientExt.kt:48-64 | with the body read inside the `try`, only cancellations and non-`Exception` throwables escape; an exception from reading a 2xx body is classified exactly like one from `execute()`, so a body that fails to deserialise gives SERIALIZATION; wherever `safeCall` as written returns normally, it answers the same |
| ImageResponse.GetImageUrl | app/src/main/java/me/iamsahil/customimageloader/data/dto/ImageResponse.kt:45 | the URL starts with the domain and "/", then has the base path, ends with "/0/" followed by the key, and is exactly 4 characters longer than the three parts |
| ImageResponse.UrlIgnoresMetadata | app/src/main/java/me/iamsahil/customimageloader/data/dto/ImageResponse.kt:28-45 | aspect ratio, id, qualities and version do not affect the URL |
| ImageResponse.KeyDeterminesUrl | app/src/main/java/me/iamsahil/customimageloader/data/dto/ImageResponse.kt:45 | under one domain and base path, two thumbnails have the same URL exactly when their keys are equal |
| ImageResponse.SlashesPassThrough | app/src/main/java/me/iamsahil/customimageloader/data/dto/ImageResponse.kt:45 | no normalisation happens: distinct thumbnails that split "p/0/q" differently between base path and key share one URL |

## Left out

- Coroutines are not modelled: `withContext(Dispatchers.IO)`, cancellation of a pending load, and concurrent loads of the same URL. `loadImage` is one sequential step.
- The UI (`RemoteImage`, `MainActivity`), the view model, dependency wiring (`AppModule`) and `ImageRepository` are not modelled. They hold no logic of the resolution chain.
- The `HttpClient.get` wrapper is not modelled. It only builds the request (route and query parameters) and hands `execute` to `safeCall`.
- OkHttp is an oracle: the outcome of `execute()`. A malformed URL that makes `Request.Builder().url` throw is one of those outcomes (`OtherException`).
- Files and image decoding are oracles: `File`/`FileOutputStream`, `BitmapFactory` and PNG compression. Losslessness of PNG is a precondition (`Lossless`), not a proved fact.
- `Bitmap.compress` returning false without throwing is not modelled. The model cannot represent a save that returns normally after writing only part of the encoding. In that case `loadImage` still answers the bitmap and caches it in memory while the file is truncated, so `NetworkHitPopulatesBoth`'s statement about the disk does not cover it. The write outcomes modelled are: it completes, opening throws, or closing the stream throws after a prefix was written.
- Pixel contents, bitmap byte sizes and logging (`Log.e`, `printStackTrace`) are not modelled.
- Parts of `LruCache` that this code does not use are not modelled: `sizeOf` overrides, `create`, `entryRemoved`, hit/miss counters and its internal locking.
- Kotlin strings holding unpaired surrogates are not modelled. Dafny strings hold Unicode scalar values only.
- The catalog DTO's other fields and its kotlinx serialization are not modelled.
- Network request counts are not modelled: a load reports only whether the network was consulted, as a flag.

## Findings

| source | as written | input that shows it | evidently intended | confidence | as-written member | corrected member |
|---|---|---|---|---|---|---|
| app/src/main/java/me/iamsahil/customimageloader/util/HttpClientExt.kt:48-64 | `responseToResult(response)`, which reads the body with `body<T>()`, runs after the `try` that guards `execute()`, so a deserialisation failure is not caught | a status-200 response whose body throws `SerializationException` when read | `safeCall` answers `Result.Error(SERIALIZATION)`, as its documentation promises | medium; not executed | HttpClientExt.DeserializationFailureEscapes | HttpClientExt.SafeCallCatchingBody |

=== FILE: bitmaps.dfy ===
/** Decoded images, encoded bytes and the platform codec between them.
    Pixel contents are out of scope; the codec is an oracle. */
module Bitmaps {
  import opened Jvm

  newtype byte = x: int | 0 <= x < 256

  type Bytes = seq<byte>

  /** An `android.graphics.Bitmap` (ARGB pixels, row by row). */
  datatype Bitmap = Bitmap(width: nat, height: nat, pixels: seq<int>)

  /** The platform image codec: `encode` is `Bitmap.compress(PNG, 100, out)`,
      `decode` is `BitmapFactory.decodeFile` / `decodeStream`, which answer
      null for bytes they cannot parse. */
  datatype Codec = Codec(encode: Bitmap -> Bytes, decode: Bytes -> Nullable<Bitmap>)

  /** PNG is lossless: decoding what was encoded gives the same bitmap back. */
  ghost predicate Lossless(c: Codec) {
    forall b :: c.decode(c.encode(b)) == NonNull(b)
  }
}

=== FILE: disk_cache.dfy ===
/** The disk tier: one file per URL in the application's cache directory,
    named by the decimal rendering of the URL's `hashCode`, holding the
    bitmap's PNG encoding. The directory is a map from file name to bytes. */
module DiskCache {
  import opened Jvm
  import opened Bitmaps
  import JavaString
  import JavaInt

  /** The cache directory: file name to file contents. */
  type Directory = map<string, Bytes>

  /** `url.hashCode().toString()`: the name reads back as the URL's hash. */
  function FileName(url: string): (name: string)
    ensures JavaInt.Parse(name) == NonNull(JavaString.HashCode(url))
  {
    JavaInt.ParseToString(JavaString.HashCode(url));
    JavaInt.ToString(JavaString.HashCode(url))
  }

  /** Two URLs address the same file exactly when their hash codes are equal. */
  lemma SameFileIffSameHash(u1: string, u2: string)
    ensures FileName(u1) == FileName(u2) <==> JavaString.HashCode(u1) == JavaString.HashCode(u2)
  {
    JavaInt.ToStringInjective(JavaString.HashCode(u1), JavaString.HashCode(u2));
  }

  /** The empty URL is stored in the file named "0". */
  lemma EmptyUrlFileName()
    ensures FileName("") == "0"
  {
    JavaString.EmptyHashIsZero();
  }

  /** `getBitmapFromDisk`: absent when no such file exists, otherwise whatever
      the decoder makes of the file's bytes, so an undecodable file reads as
      absent too. */
  function GetBitmapFromDisk(dir: Directory, codec: Codec, url: string): (r: Nullable<Bitmap>)
    ensures FileName(url) !in dir ==> r == Null
    ensures r.NonNull? ==> FileName(url) in dir && codec.decode(dir[FileName(url)]) == r
    ensures FileName(url) in dir && codec.decode(dir[FileName(url)]).Null? ==> r == Null
    ensures FileName(url) in dir ==> r == codec.decode(dir[FileName(url)])
  {
    var name := FileName(url);
    if name in dir then codec.decode(dir[name]) else Null
  }

  /** How writing the file goes: it completes, opening it throws (nothing
      written, e.g. `FileNotFoundException`), or closing the stream at the end
      of `use` throws after `written` bytes of the encoding reached the
      truncated file. `Bitmap.compress` itself reports a failed write by
      returning false, not by throwing, so a throw after a prefix comes only
      from the close. */
  datatype WriteFault =
    | NoFault
    | OpenFails(openError: Throwable)
    | WriteFails(writeError: Throwable, written: nat)

  /** The directory after `saveBitmapToDisk`, and the exception it threw, if any. */
  datatype Saved = Saved(dir: Directory, thrown: Nullable<Throwable>)

  /** `saveBitmapToDisk`: open (truncating) the URL's file and write the PNG
      encoding of the bitmap into it. */
  function SaveBitmapToDisk(dir: Directory, codec: Codec, url: string, b: Bitmap, fault: WriteFault): (r: Saved)
    ensures forall n :: n != FileName(url) ==> (n in r.dir <==> n in dir) && (n in dir ==> r.dir[n] == dir[n])
    ensures fault.NoFault? ==> r.thrown == Null && FileName(url) in r.dir && r.dir[FileName(url)] == codec.encode(b)
    ensures fault.OpenFails? ==> r.dir == dir && r.thrown == NonNull(fault.openError)
    ensures fault.WriteFails? ==> r.thrown == NonNull(fault.writeError)
    ensures fault.WriteFails? ==> FileName(url) in r.dir && r.dir[FileName(url)] <= codec.encode(b)
  {
    var name := FileName(url);
    var encoded := codec.encode(b);
    match fault
    case NoFault => Saved(dir[name := encoded], Null)
    case OpenFails(e) => Saved(dir, NonNull(e))
    case WriteFails(e, n) => Saved(dir[name := encoded[..if n < |encoded| then n else |encoded|]], NonNull(e))
  }

  /** Reading a URL back after saving its bitmap yields the bitmap, PNG being lossless. */
  lemma ReadAfterSave(dir: Directory, codec: Codec, url: string, b: Bitmap)
    requires Lossless(codec)
    ensures GetBitmapFromDisk(SaveBitmapToDisk(dir, codec, url, b, NoFault).dir, codec, url) == NonNull(b)
  {
  }

  /** Distinct URLs with equal hash codes share one file: saving one is what
      a later read of the other sees. */
  lemma CollidingUrlsShareFile(dir: Directory, codec: Codec, saved: string, other: string, b: Bitmap)
    requires Lossless(codec)
    requires JavaString.HashCode(saved) == JavaString.HashCode(other)
    ensures GetBitmapFromDisk(SaveBitmapToDisk(dir, codec, saved, b, NoFault).dir, codec, other) == NonNull(b)
  {
    SameFileIffSameHash(saved, other);
  }

  /** "Aa" and "BB" are stored in the same file, "2112". */
  lemma AaAndBBShareFile()
    ensures FileName("Aa") == FileName("BB") == "2112"
  {
    JavaString.AaAndBBCollide();
    assert JavaInt.Digits(2) == ['2'];
    assert JavaInt.Digits(21) == ['2', '1'];
    assert JavaInt.Digits(211) == ['2', '1', '1'];
    assert JavaInt.Digits(2112) == ['2', '1', '1', '2'];
  }
}

=== FILE: http_client_ext.dfy ===
/** The catalog request pipeline: `safeCall` classifies what `execute()`
    throws, and `responseToResult` maps the HTTP status to a success or to a
    `DataError.Network` case. Deserialising the body (`response.body<T>()`)
    is an oracle carried by the response. */
module HttpClientExt {
  import opened Jvm

  /** `DataError.Network`. */
  datatype NetworkError =
    | RequestTimeout
    | TooManyRequests
    | NoInternet
    | PayloadTooLarge
    | ServerError
    | Serialization
    | Unauthorized
    | Conflict
    | Unknown

  /** `Result<D, E>`: `Result.Success(data)` or `Result.Error(error)`. */
  datatype Result<+D, +E> = Success(data: D) | Error(error: E)

  /** A ktor response: its status value, and what reading the body as `T` does. */
  datatype HttpResponse<T> = HttpResponse(status: int, body: Outcome<T>)

  /** The `DataError.Network` case a non-2xx status maps to. */
  function StatusError(status: int): NetworkError
  {
    if status == 401 then Unauthorized
    else if status == 408 then RequestTimeout
    else if status == 409 then Conflict
    else if status == 413 then PayloadTooLarge
    else if status == 429 then TooManyRequests
    else if 500 <= status <= 599 then ServerError
    else Unknown
  }

  /** `responseToResult`: a 2xx status reads the body into `Success`; every
      other status becomes an error without reading the body. The body is read
      here, so an exception it throws escapes. */
  function ResponseToResult<T>(response: HttpResponse<T>): (r: Outcome<Result<T, NetworkError>>)
    ensures r.Throws? ==> 200 <= response.status <= 299 && response.body == Throws(r.exception)
    ensures r.Returns? && r.value.Success? <==> 200 <= response.status <= 299 && response.body.Returns?
    ensures r.Returns? && r.value.Success? ==> r.value.data == response.body.value
    ensures !(200 <= response.status <= 299) ==> r.Returns? && r.value.Error?
    ensures 200 <= response.status <= 299 && response.body.Throws? ==> r == Throws(response.body.exception)
  {
    if 200 <= response.status <= 299 then
      match response.body
      case Returns(data) => Returns(Success(data))
      case Throws(e) => Throws(e)
    else Returns(Error(StatusError(response.status)))
  }

  /** Each specific error has exactly one status or one status range, and
      every other non-2xx status (1xx, 3xx, 404 and the other 4xx, 600 and
      above) is `UNKNOWN`. */
  lemma StatusClassification<T>(response: HttpResponse<T>)
    ensures var r := ResponseToResult(response);
      && (r == Returns(Error(Unauthorized)) <==> response.status == 401)
      && (r == Returns(Error(RequestTimeout)) <==> response.status == 408)
      && (r == Returns(Error(Conflict)) <==> response.status == 409)
      && (r == Returns(Error(PayloadTooLarge)) <==> response.status == 413)
      && (r == Returns(Error(TooManyRequests)) <==> response.status == 429)
      && (r == Returns(Error(ServerError)) <==> 500 <= response.status <= 599)
      && (r == Returns(Error(Unknown)) <==>
            !(200 <= response.status <= 299) && response.status !in {401, 408, 409, 413, 429}
            && !(500 <= response.status <= 599))
      && (r.Returns? && r.value.Error? ==> r.value.error !in {NoInternet, Serialization})
  {
  }

  /** The `catch` clauses of `safeCall`, in order, applied to an exception
      thrown by `execute()`. */
  function ClassifyException<T>(e: Throwable): (r: Outcome<Result<T, NetworkError>>)
    ensures r.Throws? <==> e in {CancellationException, NonException}
    ensures r.Throws? ==> r.exception == e
    ensures r == Returns(Error(NoInternet)) <==> e == UnresolvedAddressException
    ensures r == Returns(Error(Serialization)) <==> e == SerializationException
    ensures r == Returns(Error(Unknown)) <==> e in {IOException, OtherException}
  {
    match e
    case UnresolvedAddressException => Returns(Error(NoInternet))
    case SerializationException => Returns(Error(Serialization))
    case _ =>
      if !e.IsException() then Throws(e)
      else if e == CancellationException then Throws(e)
      else Returns(Error(Unknown))
  }

  /** `safeCall(execute)` as written: only `execute()` is inside the `try`;
      `responseToResult` runs after it, outside. */
  function SafeCall<T>(execute: Outcome<HttpResponse<T>>): (r: Outcome<Result<T, NetworkError>>)
    ensures execute.Throws? ==> r == ClassifyException(execute.exception)
    ensures execute.Throws? ==> r.Returns? || r.exception in {CancellationException, NonException}
    ensures execute.Returns? ==> r == ResponseToResult(execute.value)
  {
    match execute
    case Throws(e) => ClassifyException(e)
    case Returns(response) => ResponseToResult(response)
  }

  /** A cancellation is rethrown, never turned into an error value. */
  lemma CancellationIsRethrown<T>()
    ensures SafeCall<T>(Throws(CancellationException)) == Throws(CancellationException)
  {
  }

  /** As written, a 2xx response whose body fails to deserialise makes
      `safeCall` throw instead of answering `SERIALIZATION`. */
  lemma DeserializationFailureEscapes()
    ensures SafeCall<int>(Returns(HttpResponse(200, Throws(SerializationException))))
      == Throws(SerializationException)
  {
  }

  /** `safeCall` with the whole of `responseToResult` inside the `try`, so the
      body's exceptions are classified like those of `execute()`. */
  function SafeCallCatchingBody<T>(execute: Outcome<HttpResponse<T>>): (r: Outcome<Result<T, NetworkError>>)
    ensures r.Throws? ==> r.exception in {CancellationException, NonException}
    ensures execute.Returns? && 200 <= execute.value.status <= 299 && execute.value.body == Throws(SerializationException)
      ==> r == Returns(Error(Serialization))
    ensures SafeCall(execute).Returns? ==> r == SafeCall(execute)
    ensures execute.Returns? && 200 <= execute.value.status <= 299 && execute.value.body.Throws?
      ==> r == ClassifyException(execute.value.body.exception)
  {
    match execute
    case Throws(e) => ClassifyException(e)
    case Returns(response) =>
      match ResponseToResult(response)
      case Throws(e) => ClassifyException(e)
      case Returns(result) => Returns(result)
  }
}

=== FILE: image_cache.dfy ===
/** The process-wide memory tier: an LRU map from URL to bitmap whose
    capacity constant is read as a byte budget but, with no `sizeOf`
    override, bounds the number of entries. */
module ImageCache {
  import opened Bitmaps
  import opened LruCache

  /** `20 * 1024 * 1024`, passed to the LRU map as its `maxSize`. */
  const CACHE_SIZE: nat := 20 * 1024 * 1024

  type MemoryCache = Lru<string, Bitmap>

  /** The cache as the singleton is constructed. */
  function NewImageCache(): (c: MemoryCache)
    ensures Valid(c)
    ensures c.maxSize == 20971520
    ensures c.entries == map[]
  {
    Empty(CACHE_SIZE)
  }

  /** Every `put` leaves at most `CACHE_SIZE` entries in the cache, whatever
      the bitmaps weigh in bytes. */
  lemma PutNeverExceedsCacheSize(c: MemoryCache, url: string, b: Bitmap)
    requires Valid(c) && c.maxSize == CACHE_SIZE
    ensures |Put(c, url, b).entries| <= CACHE_SIZE
  {
    EntryCount(Put(c, url, b));
  }

  /** Replacing the bitmap of a cached URL keeps the entry count. */
  lemma PutExistingKeepsCount(c: MemoryCache, url: string, b: Bitmap)
    requires Valid(c) && url in c.entries
    ensures |Put(c, url, b).entries| == |c.entries|
  {
    PutWithinCapacity(c, url, b);
    EntryCount(c);
    EntryCount(Put(c, url, b));
  }

  /** The size of the bitmap plays no part: which URLs stay cached after a
      `put` does not depend on the bitmap stored. */
  lemma EvictionIgnoresBitmapSize(c: MemoryCache, url: string, small: Bitmap, large: Bitmap)
    requires Valid(c)
    ensures Put(c, url, small).entries.Keys == Put(c, url, large).entries.Keys
    ensures Put(c, url, small).order == Put(c, url, large).order
  {
    if url in c.entries || |c.order| < c.maxSize {
      PutWithinCapacity(c, url, small);
      PutWithinCapacity(c, url, large);
    } else {
      TrimOverCapacity(c, url, small);
      TrimOverCapacity(c, url, large);
    }
  }
}

=== FILE: image_loader.dfy ===
/** `ImageLoader.loadImage` as one sequential step over the two cache tiers.
    Memory first, then disk, then network, stopping at the first hit; a disk
    hit is copied into memory; a network hit is written to disk, then put in
    memory. An `IOException` thrown while doing so makes the call answer null.
    The network exchange, the codec and the outcome of the file write are
    oracles supplied with the call. */
module ImageLoader {
  import opened Jvm
  import opened Bitmaps
  import opened LruCache
  import opened ImageCache
  import opened DiskCache
  import opened NetworkUtils
  import JavaString

  /** The two caches the loader reads and fills. */
  datatype State = State(memory: MemoryCache, disk: Directory)

  /** What the environment does during one call: the image codec, the
      outcome of the HTTP exchange, and how the disk write goes. */
  datatype Env = Env(codec: Codec, network: Outcome<Response>, write: WriteFault)

  /** The call's outcome, the caches afterwards, and whether the network was
      consulted. */
  datatype LoadStep = LoadStep(result: Outcome<Nullable<Bitmap>>, state: State, fetched: bool)

  ghost predicate ValidState(s: State) {
    Valid(s.memory)
  }

  /** `loadImage(context, url)`. */
  function LoadImage(s: State, env: Env, url: string): (r: LoadStep)
    requires ValidState(s)
    ensures ValidState(r.state)
    ensures r.state.memory.maxSize == s.memory.maxSize
    ensures !r.fetched ==> r.state.disk == s.disk && r.result.Returns? && r.result.value.NonNull?
    ensures r.fetched <==> url !in s.memory.entries && GetBitmapFromDisk(s.disk, env.codec, url).Null?
    ensures IsHit(r.result) ==>
      url in r.state.memory.entries && NonNull(r.state.memory.entries[url]) == r.result.value
    ensures !IsHit(r.result) ==> r.state.memory == s.memory
    ensures r.result.Throws? ==> r.result.exception != IOException
  {
    var cached := Get(s.memory, url);
    if cached.value.NonNull? then
      LoadStep(Returns(cached.value), State(cached.cache, s.disk), false)
    else
      var fromDisk := GetBitmapFromDisk(s.disk, env.codec, url);
      if fromDisk.NonNull? then
        LoadStep(Returns(fromDisk), State(Put(s.memory, url, fromDisk.value), s.disk), false)
      else
        match DownloadBitmapFromNetwork(env.network, env.codec)
        case Throws(e) => LoadStep(Throws(e), s, true)
        case Returns(Null) => LoadStep(Returns(Null), s, true)
        case Returns(NonNull(b)) =>
          var saved := SaveBitmapToDisk(s.disk, env.codec, url, b, env.write);
          match saved.thrown
          case Null => LoadStep(Returns(NonNull(b)), State(Put(s.memory, url, b), saved.dir), true)
          case NonNull(e) =>
            if e == IOException then LoadStep(Returns(Null), State(s.memory, saved.dir), true)
            else LoadStep(Throws(e), State(s.memory, saved.dir), true)
  }

  /** A memory hit answers the cached bitmap, touches neither the disk nor the
      network, and only refreshes the URL's recency. */
  lemma MemoryHit(s: State, env: Env, url: string)
    requires ValidState(s) && url in s.memory.entries
    ensures var r := LoadImage(s, env, url);
      && r.result == Returns(NonNull(s.memory.entries[url]))
      && !r.fetched
      && r.state.disk == s.disk
      && r.state.memory.entries == s.memory.entries
      && r.state.memory.order[|r.state.memory.order| - 1] == url
  {
  }

  /** A memory miss with a disk hit answers the disk's bitmap and promotes it
      into memory. */
  lemma DiskHitPromotes(s: State, env: Env, url: string, b: Bitmap)
    requires ValidState(s) && url !in s.memory.entries
    requires GetBitmapFromDisk(s.disk, env.codec, url) == NonNull(b)
    ensures var r := LoadImage(s, env, url);
      && r.result == Returns(NonNull(b))
      && !r.fetched
      && r.state.disk == s.disk
      && r.state.memory == Put(s.memory, url, b)
      && url in r.state.memory.entries && r.state.memory.entries[url] == b
  {
  }

  /** When both tiers miss and the download succeeds, the answer is the
      downloaded bitmap, the disk holds its encoding under the URL's file
      name, and memory maps the URL to it. */
  lemma NetworkHitPopulatesBoth(s: State, env: Env, url: string, b: Bitmap)
    requires ValidState(s) && url !in s.memory.entries
    requires GetBitmapFromDisk(s.disk, env.codec, url).Null?
    requires DownloadBitmapFromNetwork(env.network, env.codec) == Returns(NonNull(b))
    requires env.write == NoFault
    ensures var r := LoadImage(s, env, url);
      && r.result == Returns(NonNull(b))
      && r.fetched
      && r.state.disk == s.disk[FileName(url) := env.codec.encode(b)]
      && r.state.memory == Put(s.memory, url, b)
      && (Lossless(env.codec) ==> GetBitmapFromDisk(r.state.disk, env.codec, url) == NonNull(b))
  {
  }

  /** When both tiers miss and the download yields null (a non-2xx status, an
      `IOException`, no body, undecodable bytes), the answer is null and
      neither tier changes. */
  lemma NetworkMissChangesNothing(s: State, env: Env, url: string)
    requires ValidState(s) && url !in s.memory.entries
    requires GetBitmapFromDisk(s.disk, env.codec, url).Null?
    requires DownloadBitmapFromNetwork(env.network, env.codec) == Returns(Null)
    ensures LoadImage(s, env, url) == LoadStep(Returns(Null), s, true)
  {
  }

  /** An `IOException` from the disk write discards the downloaded bitmap: the
      answer is null and memory is not updated, since the `put` comes after
      the write. */
  lemma DiskWriteFailureYieldsNull(s: State, env: Env, url: string, b: Bitmap)
    requires ValidState(s) && url !in s.memory.entries
    requires GetBitmapFromDisk(s.disk, env.codec, url).Null?
    requires DownloadBitmapFromNetwork(env.network, env.codec) == Returns(NonNull(b))
    requires env.write == OpenFails(IOException) || (env.write.WriteFails? && env.write.writeError == IOException)
    ensures var r := LoadImage(s, env, url);
      && r.result == Returns(Null)
      && r.state.memory == s.memory
      && (env.write.OpenFails? ==> r.state.disk == s.disk)
  {
  }

  /** After any non-null answer, loading the same URL again is a memory hit
      with the same bitmap, whatever the network and disk would do. */
  lemma SecondLoadIsMemoryHit(s: State, env: Env, again: Env, url: string)
    requires ValidState(s)
    requires IsHit(LoadImage(s, env, url).result)
    ensures var first := LoadImage(s, env, url);
      var second := LoadImage(first.state, again, url);
      && second.result == first.result
      && !second.fetched
      && second.state.disk == first.state.disk
  {
    var first := LoadImage(s, env, url);
    MemoryHit(first.state, again, url);
  }

  /** A URL missing from memory whose hash code equals that of a URL already
      saved to disk is served that other URL's bitmap, which is then cached
      in memory under the new URL. */
  lemma CollisionServesOtherBitmap(s: State, env: Env, saved: string, url: string, b: Bitmap)
    requires ValidState(s) && url !in s.memory.entries
    requires Lossless(env.codec)
    requires JavaString.HashCode(saved) == JavaString.HashCode(url)
    ensures var disk := SaveBitmapToDisk(s.disk, env.codec, saved, b, NoFault).dir;
      var r := LoadImage(State(s.memory, disk), env, url);
      && r.result == Returns(NonNull(b))
      && !r.fetched
      && url in r.state.memory.entries && r.state.memory.entries[url] == b
  {
    var disk := SaveBitmapToDisk(s.disk, env.codec, saved, b, NoFault).dir;
    CollidingUrlsShareFile(s.disk, env.codec, saved, url, b);
    DiskHitPromotes(State(s.memory, disk), env, url, b);
  }

  /** The concrete case: once "Aa" was loaded from the network, a first load
      of "BB" is answered from "Aa"'s file without a fetch. */
  lemma BBServedFromAaFile(s: State, env: Env, b: Bitmap)
    requires ValidState(s) && "Aa" !in s.memory.entries && "BB" !in s.memory.entries
    requires Lossless(env.codec)
    requires GetBitmapFromDisk(s.disk, env.codec, "Aa").Null?
    requires DownloadBitmapFromNetwork(env.network, env.codec) == Returns(NonNull(b))
    requires env.write == NoFault
    ensures var first := LoadImage(s, env, "Aa");
      var second := LoadImage(first.state, env, "BB");
      && first.result == Returns(NonNull(b))
      && second.result == Returns(NonNull(b))
      && !second.fetched
  {
    JavaString.AaAndBBCollide();
    NetworkHitPopulatesBoth(s, env, "Aa", b);
    var first := LoadImage(s, env, "Aa");
    assert "BB" !in first.state.memory.entries;
    CollisionServesOtherBitmap(State(s.memory, s.disk), env, "Aa", "BB", b);
    assert first.state.disk == SaveBitmapToDisk(s.disk, env.codec, "Aa", b, NoFault).dir;
    CollidingUrlsShareFile(s.disk, env.codec, "Aa", "BB", b);
    DiskHitPromotes(first.state, env, "BB", b);
  }
}

=== FILE: image_response.dfy ===
/** The catalog's thumbnail record and the image URL built from it, which is
    the key every cache tier is addressed by. */
module ImageResponse {

  /** `Thumbnail` as deserialised from the catalog (a Kotlin `Double` aspect
      ratio is kept as a `real`). */
  datatype Thumbnail = Thumbnail(
    aspectRatio: real,
    basePath: string,
    domain: string,
    id: string,
    key: string,
    qualities: seq<int>,
    version: int)

  /** `getImageUrl()`: the template "$domain/$basePath/0/$key", with the
      components inserted verbatim. */
  function GetImageUrl(t: Thumbnail): (url: string)
    ensures |url| == |t.domain| + |t.basePath| + |t.key| + 4
    ensures url[..|t.domain|] == t.domain
    ensures url[|t.domain|] == '/'
    ensures url[|t.domain| + 1..|t.domain| + 1 + |t.basePath|] == t.basePath
    ensures url[|url| - |t.key| - 3..|url| - |t.key|] == "/0/"
    ensures url[|url| - |t.key|..] == t.key
  {
    t.domain + "/" + t.basePath + "/0/" + t.key
  }

  /** Only the domain, base path and key matter: the aspect ratio, id,
      qualities and version do not change the URL. */
  lemma UrlIgnoresMetadata(t1: Thumbnail, t2: Thumbnail)
    requires t1.domain == t2.domain && t1.basePath == t2.basePath && t1.key == t2.key
    ensures GetImageUrl(t1) == GetImageUrl(t2)
  {
  }

  /** Under one domain and base path, distinct keys give distinct URLs, so
      distinct images there never share a cache entry. */
  lemma KeyDeterminesUrl(t1: Thumbnail, t2: Thumbnail)
    requires t1.domain == t2.domain && t1.basePath == t2.basePath
    ensures GetImageUrl(t1) == GetImageUrl(t2) <==> t1.key == t2.key
  {
    if GetImageUrl(t1) == GetImageUrl(t2) {
      var u := GetImageUrl(t1);
      assert t1.key == u[|u| - |t1.key|..];
      assert t2.key == u[|u| - |t2.key|..];
    }
  }

  /** No normalisation happens: slashes inside the components pass through,
      so a base path and key that split "p/0/q" differently give the same URL. */
  lemma SlashesPassThrough()
    ensures var a := Thumbnail(1.0, "p/0/q", "https://cdn", "a", "k", [], 1);
      var b := Thumbnail(1.0, "p", "https://cdn", "b", "q/0/k", [], 1);
      a != b && GetImageUrl(a) == GetImageUrl(b) == "https://cdn/p/0/q/0/k"
  {
    var u := "https://cdn/p/0/q/0/k";
    assert "https://cdn" + "/" + "p/0/q" + "/0/" + "k" == u;
    assert "https://cdn" + "/" + "p" + "/0/" + "q/0/k" == u;
  }
}

=== FILE: java_int.dfy ===
/** `Int.toString()` on the JVM (`Integer.toString`): an optional minus sign
    followed by the decimal digits of the magnitude, without leading zeros.
    A parser is its partner: rendering then parsing gives the number back, so
    two numbers render alike exactly when they are equal. */
module JavaInt {
  import opened Jvm

  predicate IsDigit(c: char) {
    '0' <= c <= '9'
  }

  predicate AllDigits(s: string) {
    forall i :: 0 <= i < |s| ==> IsDigit(s[i])
  }

  function DigitChar(d: nat): (c: char)
    requires d < 10
    ensures IsDigit(c)
    ensures c as int - '0' as int == d
  {
    (('0' as int) + d) as char
  }

  /** The decimal digits of `n`, most significant first. */
  function Digits(n: nat): (s: string)
    ensures |s| >= 1
    ensures AllDigits(s)
    ensures |s| > 1 ==> s[0] != '0'
  {
    if n < 10 then [DigitChar(n)] else Digits(n / 10) + [DigitChar(n % 10)]
  }

  /** `i.toString()` for an `Int` `i`. */
  function ToString(i: int): (s: string)
    ensures |s| >= 1
    ensures i < 0 <==> s[0] == '-'
    ensures i >= 0 ==> AllDigits(s)
    ensures i < 0 ==> |s| >= 2 && AllDigits(s[1..])
    ensures var m := if i < 0 then s[1..] else s; |m| > 1 ==> m[0] != '0'
  {
    if i < 0 then "-" + Digits(-i) else Digits(i)
  }

  /** The value of a digit string; the empty string counts as 0. */
  function Value(s: string): nat
    requires AllDigits(s)
  {
    if |s| == 0 then 0 else 10 * Value(s[..|s| - 1]) + (s[|s| - 1] as int - '0' as int)
  }

  /** Reads back an optionally signed decimal numeral. */
  function Parse(s: string): Nullable<int>
  {
    if |s| >= 2 && s[0] == '-' && AllDigits(s[1..]) then NonNull(-(Value(s[1..]) as int))
    else if |s| >= 1 && AllDigits(s) then NonNull(Value(s))
    else Null
  }

  lemma {:induction false} ValueOfDigits(n: nat)
    ensures Value(Digits(n)) == n
  {
    if n >= 10 {
      var s := Digits(n);
      assert s[..|s| - 1] == Digits(n / 10);
      ValueOfDigits(n / 10);
    }
  }

  /** Parsing undoes rendering. */
  lemma ParseToString(i: int)
    ensures Parse(ToString(i)) == NonNull(i)
  {
    var s := ToString(i);
    if i < 0 {
      assert s == "-" + Digits(-i);
      assert s[1..] == Digits(-i);
      ValueOfDigits(-i);
      assert Parse(s) == NonNull(-(Value(Digits(-i)) as int));
    } else {
      assert s == Digits(i) && s[0] != '-';
      ValueOfDigits(i);
      assert Parse(s) == NonNull(Value(Digits(i)));
    }
  }

  /** Rendering is injective: equal renderings come from equal numbers. */
  lemma ToStringInjective(a: int, b: int)
    ensures ToString(a) == ToString(b) <==> a == b
  {
    ParseToString(a);
    ParseToString(b);
  }

  lemma ZeroRendersAsZero()
    ensures ToString(0) == "0"
  {
  }
}

=== FILE: java_string.dfy ===
/** `java.lang.String.hashCode` as Kotlin calls it on the JVM: the polynomial
    h = 31*h + unit over the string's UTF-16 code units, in 32-bit `int`
    arithmetic that wraps on overflow. */
module JavaString {

  const TWO_31: int := 0x8000_0000
  const TWO_32: int := 0x1_0000_0000

  /** The range of a JVM `int`. */
  predicate IsInt32(x: int) {
    -TWO_31 <= x < TWO_31
  }

  /** Two's-complement truncation of an unbounded integer to a JVM `int`. */
  function ToInt32(x: int): (r: int)
    ensures IsInt32(r)
    ensures IsInt32(x) ==> r == x
  {
    (x + 0x8000_0000) % 0x1_0000_0000 - 0x8000_0000
  }

  /** Adding a multiple of 2^32 is invisible after truncation. */
  lemma ToInt32Periodic(x: int, m: int)
    ensures ToInt32(x + m * TWO_32) == ToInt32(x)
  {
  }

  /** The UTF-16 code units of one character: characters outside the Basic
      Multilingual Plane become a high and a low surrogate. */
  function CodeUnits(c: char): (units: seq<int>)
    ensures 1 <= |units| <= 2
    ensures forall i :: 0 <= i < |units| ==> 0 <= units[i] < 0x1_0000
    ensures (c as int < 0x1_0000) == (|units| == 1)
    ensures |units| == 1 ==> units[0] == c as int
    ensures |units| == 2 ==>
      && 0xD800 <= units[0] < 0xDC00 && 0xDC00 <= units[1] < 0xE000
      && 0x1_0000 + (units[0] - 0xD800) * 0x400 + (units[1] - 0xDC00) == c as int
  {
    var v := c as int;
    if v < 0x1_0000 then [v]
    else [0xD800 + (v - 0x1_0000) / 0x400, 0xDC00 + (v - 0x1_0000) % 0x400]
  }

  /** The code units a JVM `String` stores for `s`. */
  function Utf16(s: string): (units: seq<int>)
    ensures |units| >= |s|
    ensures forall i :: 0 <= i < |units| ==> 0 <= units[i] < 0x1_0000
  {
    if |s| == 0 then [] else Utf16(s[..|s| - 1]) + CodeUnits(s[|s| - 1])
  }

  /** A string of Basic-Multilingual-Plane characters (every URL in ASCII is one)
      is stored as one code unit per character. */
  lemma {:induction false} Utf16OfBmp(s: string)
    requires forall i :: 0 <= i < |s| ==> s[i] as int < 0x1_0000
    ensures |Utf16(s)| == |s|
    ensures forall i :: 0 <= i < |s| ==> Utf16(s)[i] == s[i] as int
  {
    if |s| > 0 {
      Utf16OfBmp(s[..|s| - 1]);
    }
  }

  /** The hash of a code-unit sequence, one loop step per unit, as
      `String.hashCode` iterates: h := 31*h + unit, truncated to 32 bits. */
  function HashUnits(units: seq<int>): (h: int)
    ensures IsInt32(h)
  {
    if |units| == 0 then 0
    else ToInt32(31 * HashUnits(units[..|units| - 1]) + units[|units| - 1])
  }

  /** `url.hashCode()`. */
  function HashCode(s: string): (h: int)
    ensures IsInt32(h)
  {
    HashUnits(Utf16(s))
  }

  function Pow31(n: nat): int
  {
    if n == 0 then 1 else 31 * Pow31(n - 1)
  }

  /** The documented closed form s[0]*31^(n-1) + s[1]*31^(n-2) + ... + s[n-1],
      evaluated without overflow. */
  function Polynomial(units: seq<int>): int
  {
    if |units| == 0 then 0 else units[0] * Pow31(|units| - 1) + Polynomial(units[1..])
  }

  /** Appending a unit multiplies the closed form by 31 and adds the unit. */
  lemma {:induction false} PolynomialSnoc(units: seq<int>, c: int)
    ensures Polynomial(units + [c]) == 31 * Polynomial(units) + c
  {
    if |units| == 0 {
      assert units + [c] == [c];
    } else {
      var t := units + [c];
      assert t[1..] == units[1..] + [c];
      PolynomialSnoc(units[1..], c);
      calc {
        Polynomial(t);
        units[0] * Pow31(|units|) + Polynomial(units[1..] + [c]);
        units[0] * (31 * Pow31(|units| - 1)) + 31 * Polynomial(units[1..]) + c;
        { assert units[0] * (31 * Pow31(|units| - 1)) == 31 * (units[0] * Pow31(|units| - 1)); }
        31 * (units[0] * Pow31(|units| - 1) + Polynomial(units[1..])) + c;
      }
    }
  }

  /** The wrapping loop computes the closed form modulo 2^32: overflow in an
      intermediate step does not change the final hash. */
  lemma {:induction false} HashUnitsIsPolynomial(units: seq<int>)
    ensures HashUnits(units) == ToInt32(Polynomial(units))
  {
    if |units| > 0 {
      var init := units[..|units| - 1];
      var last := units[|units| - 1];
      assert units == init + [last];
      HashUnitsIsPolynomial(init);
      PolynomialSnoc(init, last);
      var p := Polynomial(init);
      var h := HashUnits(init);
      // h == ToInt32(p) == p - TWO_32 * q for the quotient q of the truncation
      var q := (p + TWO_31) / TWO_32;
      assert h == p - q * TWO_32;
      assert 31 * h + last == (31 * p + last) + (-31 * q) * TWO_32;
      ToInt32Periodic(31 * p + last, -31 * q);
    }
  }

  /** `String.hashCode` equals the documented closed form in `int` arithmetic. */
  lemma HashCodeIsPolynomial(s: string)
    ensures HashCode(s) == ToInt32(Polynomial(Utf16(s)))
  {
    HashUnitsIsPolynomial(Utf16(s));
  }

  /** The loop of `String.hashCode`. */
  method ComputeHashCode(s: string) returns (h: int)
    ensures IsInt32(h)
    ensures h == HashCode(s)
    ensures h == ToInt32(Polynomial(Utf16(s)))
  {
    var units := Utf16(s);
    h := 0;
    var i := 0;
    while i < |units|
      invariant 0 <= i <= |units|
      invariant h == HashUnits(units[..i])
    {
      assert units[..i + 1][..i] == units[..i];
      h := ToInt32(31 * h + units[i]);
      i := i + 1;
    }
    assert units[..i] == units;
    HashCodeIsPolynomial(s);
  }

  /** The empty string hashes to 0. */
  lemma EmptyHashIsZero()
    ensures HashCode("") == 0
  {
  }

  /** A Basic-Multilingual-Plane character is one code unit. */
  lemma Utf16OfChar(a: char)
    requires a as int < 0x1_0000
    ensures Utf16([a]) == [a as int]
  {
    assert [a][..0] == [];
  }

  /** The hash of a two-character string of Basic-Multilingual-Plane characters. */
  lemma HashOfPair(a: char, b: char)
    requires a as int < 0x1_0000 && b as int < 0x1_0000
    ensures HashCode([a, b]) == 31 * (a as int) + b as int
  {
    var x, y := a as int, b as int;
    assert [a, b][..1] == [a];
    Utf16OfChar(a);
    assert CodeUnits(b) == [y];
    assert Utf16([a, b]) == Utf16([a]) + CodeUnits(b);
    assert Utf16([a, b]) == [x, y];
    assert [x, y][..1] == [x];
    assert [x][..0] == [];
    assert HashUnits([x]) == ToInt32(x) == x;
    assert HashUnits([x, y]) == ToInt32(31 * x + y);
    assert IsInt32(31 * x + y);
  }

  /** "Aa" and "BB" are distinct strings with the same hash (65*31+97 == 66*31+66 == 2112). */
  lemma AaAndBBCollide()
    ensures "Aa" != "BB"
    ensures HashCode("Aa") == HashCode("BB") == 2112
  {
    assert "Aa" == ['A', 'a'] && "BB" == ['B', 'B'];
    HashOfPair('A', 'a');
    HashOfPair('B', 'B');
  }
}

=== FILE: jvm.dfy ===
/** Values shared by every part of the image loader: Kotlin's nullable types,
    the JVM exceptions the code distinguishes in its `catch` clauses, and the
    way a call finishes (it returns or it throws). */
module Jvm {

  /** Kotlin's nullable `T?`: `Null` is `null`. */
  datatype Nullable<+T> = Null | NonNull(value: T)

  /** The exception classes that the modelled `catch` clauses tell apart. */
  datatype Throwable =
    | IOException                 // java.io.IOException and its subclasses
    | UnresolvedAddressException  // java.nio.channels.UnresolvedAddressException
    | SerializationException      // kotlinx.serialization.SerializationException
    | CancellationException       // kotlin.coroutines.cancellation.CancellationException
    | OtherException              // any other java.lang.Exception
    | NonException                // a Throwable that is not an Exception (java.lang.Error)
  {
    /** True when `catch (e: Exception)` catches it. */
    predicate IsException() {
      !NonException?
    }
  }

  /** How a JVM call finishes: it returns a value or throws. */
  datatype Outcome<+T> = Returns(value: T) | Throws(exception: Throwable)

  /** A call that returned a non-null value: `Returns(NonNull(v))`. */
  predicate IsHit<T>(o: Outcome<Nullable<T>>) {
    o.Returns? && o.value.NonNull?
  }
}

=== FILE: lru_cache.dfy ===
/** `androidx.collection.LruCache` with the default `sizeOf` (every entry
    weighs 1), so its size is the number of entries. The access-ordered map
    is a key/value map plus a recency list; `get` hits and `put`s count as
    accesses, and `trimToSize` evicts from the least-recently-used end. */
module LruCache {
  import opened Jvm

  /** `order` lists the cached keys from least to most recently accessed. */
  datatype Lru<K, V> = Lru(maxSize: nat, entries: map<K, V>, order: seq<K>)

  /** What `get` answers, and the cache after the lookup. */
  datatype Lookup<K, V> = Lookup(value: Nullable<V>, cache: Lru<K, V>)

  /** One cache operation, for reasoning about sequences of them. */
  datatype Op<K, V> = GetOp(key: K) | PutOp(key: K, value: V)

  predicate Distinct<K(==,!new)>(s: seq<K>) {
    forall i, j :: 0 <= i < j < |s| ==> s[i] != s[j]
  }

  /** The members of a sequence. */
  function Elements<K(==,!new)>(s: seq<K>): set<K>
  {
    set x | x in s
  }

  /** The cache's representation invariant: `maxSize` is positive (the
      constructor throws otherwise), the recency list holds every key exactly
      once, and the size never exceeds `maxSize`. */
  ghost predicate Valid<K(!new), V>(c: Lru<K, V>) {
    && c.maxSize > 0
    && Distinct(c.order)
    && c.entries.Keys == Elements(c.order)
    && |c.order| <= c.maxSize
  }

  /** A fresh cache of capacity `maxSize`. */
  function Empty<K(==,!new), V>(maxSize: nat): (c: Lru<K, V>)
    requires maxSize > 0
    ensures Valid(c) && c.entries == map[]
  {
    Lru(maxSize, map[], [])
  }

  function IndexOf<K(==,!new)>(s: seq<K>, k: K): (p: nat)
    requires k in s
    ensures p < |s| && s[p] == k
    ensures forall i :: 0 <= i < p ==> s[i] != k
  {
    if s[0] == k then 0 else 1 + IndexOf(s[1..], k)
  }

  /** The recency list after an access to `k`: `k` moves, or is appended, to
      the most-recently-used end; the other keys keep their relative order. */
  function Touch<K(==,!new)>(order: seq<K>, k: K): (r: seq<K>)
    ensures |r| >= 1 && r[|r| - 1] == k
    ensures forall x :: x in r <==> x in order || x == k
    ensures Distinct(order) ==> Distinct(r)
    ensures k in order ==> |r| == |order|
    ensures k !in order ==> |r| == |order| + 1 && r[..|order|] == order
    ensures k in order ==> r[..|order| - 1] == order[..IndexOf(order, k)] + order[IndexOf(order, k) + 1..]
  {
    if k in order then
      var p := IndexOf(order, k);
      MoveToEnd(order, p);
      order[..p] + order[p + 1..] + [k]
    else
      order + [k]
  }

  /** Moving the element at `p` to the end keeps the same members, keeps the
      others in their order, and keeps distinct elements distinct. */
  lemma MoveToEnd<K(!new)>(s: seq<K>, p: nat)
    requires p < |s|
    ensures var r := s[..p] + s[p + 1..] + [s[p]];
      && |r| == |s| && r[|r| - 1] == s[p]
      && r[..|s| - 1] == s[..p] + s[p + 1..]
      && (forall x :: x in r <==> x in s)
      && (Distinct(s) ==> Distinct(r))
  {
    var r := s[..p] + s[p + 1..] + [s[p]];
    assert forall i :: 0 <= i < |s| - 1 ==> r[i] == if i < p then s[i] else s[i + 1];
    assert forall x :: x in s ==> x in r by {
      forall x | x in s ensures x in r {
        var j :| 0 <= j < |s| && s[j] == x;
        if j < p { assert r[j] == x; } else if j == p { assert r[|r| - 1] == x; } else { assert r[j - 1] == x; }
      }
    }
  }

  /** `cache[key]`: a hit answers the mapping and records the access, a miss
      answers null (the default `create` returns null) and changes nothing. */
  function Get<K(==,!new), V>(c: Lru<K, V>, k: K): (r: Lookup<K, V>)
    requires Valid(c)
    ensures Valid(r.cache)
    ensures r.cache.maxSize == c.maxSize
    ensures r.cache.entries == c.entries
    ensures r.value.NonNull? <==> k in c.entries
    ensures r.value.NonNull? ==> r.value.value == c.entries[k] && r.cache.order[|r.cache.order| - 1] == k
    ensures r.value.Null? ==> r.cache == c
  {
    if k in c.entries then Lookup(NonNull(c.entries[k]), c.(order := Touch(c.order, k)))
    else Lookup(Null, c)
  }

  /** `trimToSize(maxSize)`: while the size exceeds the capacity and the map is
      not empty, evict the eldest (least recently used) entry. */
  function TrimToSize<K(==,!new), V>(c: Lru<K, V>): (r: Lru<K, V>)
    ensures r.maxSize == c.maxSize
    ensures |r.order| == if |c.order| <= c.maxSize then |c.order| else c.maxSize
    ensures r.order == c.order[|c.order| - |r.order|..]
    ensures r.entries == c.entries - Elements(c.order[..|c.order| - |r.order|])
    decreases |c.order|
  {
    if |c.order| <= c.maxSize || |c.order| == 0 then c
    else
      var r := TrimToSize(DropEldest(c));
      EvictedPrefix(c, |c.order| - |r.order|);
      r
  }

  /** Evicting the eldest and then a prefix of `n - 1` more evicts a prefix of `n`. */
  lemma EvictedPrefix<K(!new), V>(c: Lru<K, V>, n: nat)
    requires 0 < n <= |c.order|
    ensures c.entries - Elements(c.order[..n])
         == DropEldest(c).entries - Elements(DropEldest(c).order[..n - 1])
    ensures c.order[n..] == DropEldest(c).order[n - 1..]
  {
    assert c.order[..n] == [c.order[0]] + c.order[1..][..n - 1];
    assert Elements(c.order[..n]) == {c.order[0]} + Elements(c.order[1..][..n - 1]);
  }

  /** `cache.put(k, v)`: store the mapping as the most recent access, then trim
      to capacity. Replacing an existing key does not change the size. */
  function Put<K(==,!new), V>(c: Lru<K, V>, k: K, v: V): (r: Lru<K, V>)
    requires Valid(c)
    ensures Valid(r)
    ensures r.maxSize == c.maxSize
    ensures k in r.entries && r.entries[k] == v
    ensures r.order[|r.order| - 1] == k
    ensures forall x :: x in r.entries && x != k ==> x in c.entries && r.entries[x] == c.entries[x]
    ensures k in c.entries || |c.order| < c.maxSize ==> r.entries.Keys == c.entries.Keys + {k}
    ensures k !in c.entries && |c.order| == c.maxSize ==> r.entries.Keys == c.entries.Keys + {k} - {c.order[0]}
  {
    PutEffect(c, k, v);
    TrimToSize(Stored(c, k, v))
  }

  /** Everything `Put` promises, stated of the stored-then-trimmed cache. */
  lemma PutEffect<K(!new), V>(c: Lru<K, V>, k: K, v: V)
    requires Valid(c)
    ensures var r := TrimToSize(Stored(c, k, v));
      && Valid(r)
      && r.maxSize == c.maxSize
      && k in r.entries && r.entries[k] == v
      && |r.order| > 0 && r.order[|r.order| - 1] == k
      && (forall x :: x in r.entries && x != k ==> x in c.entries && r.entries[x] == c.entries[x])
      && (k in c.entries || |c.order| < c.maxSize ==> r.entries.Keys == c.entries.Keys + {k})
      && (k !in c.entries && |c.order| == c.maxSize ==> |c.order| > 0 && r.entries.Keys == c.entries.Keys + {k} - {c.order[0]})
  {
    PutKeepsValid(c, k, v);
    PutStoresMapping(c, k, v);
    PutFrame(c, k, v);
    PutKeys(c, k, v);
  }

  lemma PutKeepsValid<K(!new), V>(c: Lru<K, V>, k: K, v: V)
    requires Valid(c)
    ensures Valid(TrimToSize(Stored(c, k, v)))
  {
    if k in c.entries || |c.order| < c.maxSize {
      PutWithinCapacity(c, k, v);
    } else {
      PutOverCapacity(c, k, v);
    }
  }

  lemma PutStoresMapping<K(!new), V>(c: Lru<K, V>, k: K, v: V)
    requires Valid(c)
    ensures var r := TrimToSize(Stored(c, k, v));
      k in r.entries && r.entries[k] == v && |r.order| > 0 && r.order[|r.order| - 1] == k
  {
    if k in c.entries || |c.order| < c.maxSize {
      PutWithinCapacity(c, k, v);
    } else {
      PutOverCapacity(c, k, v);
    }
  }

  lemma PutFrame<K(!new), V>(c: Lru<K, V>, k: K, v: V)
    requires Valid(c)
    ensures var r := TrimToSize(Stored(c, k, v));
      forall x :: x in r.entries && x != k ==> x in c.entries && r.entries[x] == c.entries[x]
  {
    if k in c.entries || |c.order| < c.maxSize {
      PutWithinCapacity(c, k, v);
    } else {
      PutOverCapacity(c, k, v);
    }
  }

  lemma PutKeys<K(!new), V>(c: Lru<K, V>, k: K, v: V)
    requires Valid(c)
    ensures var r := TrimToSize(Stored(c, k, v));
      && (k in c.entries || |c.order| < c.maxSize ==> r.entries.Keys == c.entries.Keys + {k})
      && (k !in c.entries && |c.order| == c.maxSize ==> r.entries.Keys == c.entries.Keys + {k} - {c.order[0]})
  {
    var pre := Stored(c, k, v);
    assert pre.entries.Keys == c.entries.Keys + {k};
    if k in c.entries || |c.order| < c.maxSize {
      PutWithinCapacity(c, k, v);
    } else {
      TrimOverCapacity(c, k, v);
      assert DropEldest(pre).entries.Keys == pre.entries.Keys - {c.order[0]};
    }
  }

  /** The cache just before `trimToSize`: the mapping stored, `k` touched. */
  function Stored<K(==,!new), V>(c: Lru<K, V>, k: K, v: V): (pre: Lru<K, V>)
  {
    c.(entries := c.entries[k := v], order := Touch(c.order, k))
  }

  /** When the key was present or the cache had room, nothing is trimmed. */
  lemma PutWithinCapacity<K(!new), V>(c: Lru<K, V>, k: K, v: V)
    requires Valid(c)
    requires k in c.entries || |c.order| < c.maxSize
    ensures TrimToSize(Stored(c, k, v)) == Stored(c, k, v)
    ensures Valid(Stored(c, k, v))
  {
    StoredValid(c, k, v);
  }

  lemma StoredValid<K(!new), V>(c: Lru<K, V>, k: K, v: V)
    requires Valid(c)
    requires k in c.entries || |c.order| < c.maxSize
    ensures Valid(Stored(c, k, v))
  {
    var pre := Stored(c, k, v);
    assert pre.entries.Keys == c.entries.Keys + {k};
    assert Elements(pre.order) == Elements(c.order) + {k};
  }

  /** The cache after evicting its eldest entry. */
  function DropEldest<K(==,!new), V>(c: Lru<K, V>): Lru<K, V>
    requires |c.order| > 0
  {
    c.(entries := c.entries - {c.order[0]}, order := c.order[1..])
  }

  /** When a new key overflows a full cache, exactly the eldest key is dropped. */
  lemma PutOverCapacity<K(!new), V>(c: Lru<K, V>, k: K, v: V)
    requires Valid(c)
    requires k !in c.entries && |c.order| == c.maxSize
    ensures Stored(c, k, v).order == c.order + [k]
    ensures TrimToSize(Stored(c, k, v)) == DropEldest(Stored(c, k, v))
    ensures Valid(DropEldest(Stored(c, k, v)))
  {
    TrimOverCapacity(c, k, v);
    DropEldestValid(c, k, v);
  }

  lemma TrimOverCapacity<K(!new), V>(c: Lru<K, V>, k: K, v: V)
    requires Valid(c)
    requires k !in c.entries && |c.order| == c.maxSize
    ensures Stored(c, k, v).order == c.order + [k]
    ensures TrimToSize(Stored(c, k, v)) == DropEldest(Stored(c, k, v))
  {
    var pre := Stored(c, k, v);
    assert pre.order == c.order + [k];
    var post := DropEldest(pre);
    assert TrimToSize(post) == post;
  }

  lemma DropEldestValid<K(!new), V>(c: Lru<K, V>, k: K, v: V)
    requires Valid(c)
    requires k !in c.entries && |c.order| == c.maxSize
    ensures Valid(DropEldest(Stored(c, k, v)))
  {
    var pre := Stored(c, k, v);
    assert pre.order == c.order + [k];
    DropEldestKeys(pre);
  }

  /** Dropping the eldest of distinct keys leaves the map and the list in step. */
  lemma DropEldestKeys<K(!new), V>(c: Lru<K, V>)
    requires |c.order| > 0 && Distinct(c.order)
    requires forall x :: x in c.entries <==> x in c.order
    ensures forall x :: x in DropEldest(c).entries <==> x in DropEldest(c).order
  {
    var post := DropEldest(c);
    forall x | x in post.order ensures x in post.entries {
      var j :| 0 <= j < |post.order| && post.order[j] == x;
      assert c.order[j + 1] == x;
    }
  }

  /** One operation's effect on the cache. */
  function Step<K(==,!new), V>(c: Lru<K, V>, op: Op<K, V>): (r: Lru<K, V>)
    requires Valid(c)
    ensures Valid(r)
    ensures r.maxSize == c.maxSize
    ensures forall x :: x in r.entries && !(op.PutOp? && op.key == x) ==> x in c.entries && r.entries[x] == c.entries[x]
  {
    match op
    case GetOp(k) => Get(c, k).cache
    case PutOp(k, v) => Put(c, k, v)
  }

  /** Applies a sequence of operations, as successive calls would. */
  function Apply<K(==,!new), V>(c: Lru<K, V>, ops: seq<Op<K, V>>): (r: Lru<K, V>)
    requires Valid(c)
    ensures Valid(r)
    ensures r.maxSize == c.maxSize
    decreases |ops|
  {
    if |ops| == 0 then c else Apply(Step(c, ops[0]), ops[1..])
  }

  /** A set of distinct elements has as many members as the sequence. */
  lemma {:induction false} DistinctCardinality<K(!new)>(s: seq<K>)
    requires Distinct(s)
    ensures |set x | x in s| == |s|
  {
    if |s| > 0 {
      var t := s[1..];
      assert Distinct(t);
      DistinctCardinality(t);
      assert (set x | x in s) == {s[0]} + (set x | x in t);
      assert forall j :: 0 <= j < |t| ==> t[j] == s[j + 1] != s[0];
    }
  }

  /** With every entry weighing 1, the number of entries is the cache's size,
      so it never exceeds `maxSize`. */
  lemma EntryCount<K(!new), V>(c: Lru<K, V>)
    requires Valid(c)
    ensures |c.entries| == |c.order| <= c.maxSize
  {
    DistinctCardinality(c.order);
    assert c.entries.Keys == set x | x in c.order;
  }

  /** After any sequence of operations the entry count is within capacity. */
  lemma ApplyBounded<K(!new), V>(c: Lru<K, V>, ops: seq<Op<K, V>>)
    requires Valid(c)
    ensures |Apply(c, ops).entries| <= c.maxSize
  {
    EntryCount(Apply(c, ops));
  }

  /** No operation in `ops` puts `k`. */
  predicate NoPutOf<K(==,!new), V>(ops: seq<Op<K, V>>, k: K) {
    forall i :: 0 <= i < |ops| ==> !(ops[i].PutOp? && ops[i].key == k)
  }

  lemma NoPutOfTail<K(!new), V>(ops: seq<Op<K, V>>, k: K)
    requires |ops| > 0 && NoPutOf(ops, k)
    ensures !(ops[0].PutOp? && ops[0].key == k)
    ensures NoPutOf(ops[1..], k)
  {
    assert forall i :: 0 <= i < |ops| - 1 ==> ops[1..][i] == ops[i + 1];
  }

  /** A mapping that was put stays readable, unchanged, through any operations
      that do not put the same key again, as long as it is not evicted. */
  lemma GetAfterPut<K(!new), V>(c: Lru<K, V>, k: K, v: V, ops: seq<Op<K, V>>)
    requires Valid(c)
    requires NoPutOf(ops, k)
    requires k in Apply(Put(c, k, v), ops).entries
    ensures Get(Apply(Put(c, k, v), ops), k).value == NonNull(v)
  {
    StaysMapped(Put(c, k, v), k, v, ops);
  }

  lemma {:induction false} StaysMapped<K(!new), V>(c: Lru<K, V>, k: K, v: V, ops: seq<Op<K, V>>)
    requires Valid(c)
    requires k in c.entries && c.entries[k] == v
    requires NoPutOf(ops, k)
    requires k in Apply(c, ops).entries
    ensures Apply(c, ops).entries[k] == v
    decreases |ops|
  {
    if |ops| > 0 {
      NoPutOfTail(ops, k);
      var next := Step(c, ops[0]);
      assert Apply(c, ops) == Apply(next, ops[1..]);
      if k in next.entries {
        assert next.entries[k] == v;
        StaysMapped(next, k, v, ops[1..]);
      } else {
        EvictedStaysOut(next, k, ops[1..]);
      }
    }
  }

  /** A key that is absent stays absent until it is put again. */
  lemma {:induction false} EvictedStaysOut<K(!new), V>(c: Lru<K, V>, k: K, ops: seq<Op<K, V>>)
    requires Valid(c)
    requires k !in c.entries
    requires NoPutOf(ops, k)
    ensures k !in Apply(c, ops).entries
    decreases |ops|
  {
    if |ops| > 0 {
      NoPutOfTail(ops, k);
      var next := Step(c, ops[0]);
      assert Apply(c, ops) == Apply(next, ops[1..]);
      EvictedStaysOut(next, k, ops[1..]);
    }
  }

  // ---------------------------------------------------------------------------
  // Recency against an independent reference: the history of accesses.
  // ---------------------------------------------------------------------------

  /** Position of the last access to `k` in history `h`, or -1 if none. */
  function LastAccess<K(==,!new)>(h: seq<K>, k: K): (i: int)
    ensures -1 <= i < |h|
    ensures i >= 0 ==> h[i] == k
    ensures forall j :: i < j < |h| ==> h[j] != k
  {
    if |h| == 0 then -1
    else if h[|h| - 1] == k then |h| - 1
    else LastAccess(h[..|h| - 1], k)
  }

  /** `order` lists keys that were all accessed in `h`, by increasing time of
      their last access. */
  ghost predicate RecencyOrdered<K(!new)>(order: seq<K>, h: seq<K>) {
    && (forall i :: 0 <= i < |order| ==> 0 <= LastAccess(h, order[i]))
    && (forall i, j :: 0 <= i < j < |order| ==> LastAccess(h, order[i]) < LastAccess(h, order[j]))
  }

  lemma LastAccessAfter<K(!new)>(h: seq<K>, k: K, x: K)
    ensures LastAccess(h + [k], x) == if x == k then |h| else LastAccess(h, x)
  {
    assert (h + [k])[..|h|] == h;
  }

  /** Touching `k` while recording an access to `k` keeps the list ordered. */
  lemma TouchRecords<K(!new)>(order: seq<K>, h: seq<K>, k: K)
    requires Distinct(order)
    requires RecencyOrdered(order, h)
    ensures RecencyOrdered(Touch(order, k), h + [k])
  {
    if k in order {
      var p := IndexOf(order, k);
      var rest := order[..p] + order[p + 1..];
      DeleteKeepsOrder(order, h, p);
      assert forall i :: 0 <= i < |rest| ==> rest[i] == if i < p then order[i] else order[i + 1];
      assert k !in rest;
      AppendAccess(rest, h, k);
    } else {
      AppendAccess(order, h, k);
    }
  }

  /** Deleting one key keeps the others in order. */
  lemma DeleteKeepsOrder<K(!new)>(s: seq<K>, h: seq<K>, p: nat)
    requires p < |s|
    requires RecencyOrdered(s, h)
    ensures RecencyOrdered(s[..p] + s[p + 1..], h)
  {
    var d := s[..p] + s[p + 1..];
    assert forall i :: 0 <= i < |d| ==> d[i] == if i < p then s[i] else s[i + 1];
  }

  /** An access to a key not in the list makes it the most recent. */
  lemma AppendAccess<K(!new)>(s: seq<K>, h: seq<K>, k: K)
    requires k !in s
    requires RecencyOrdered(s, h)
    ensures RecencyOrdered(s + [k], h + [k])
  {
    var h' := h + [k];
    forall x ensures LastAccess(h', x) == if x == k then |h| else LastAccess(h, x) {
      LastAccessAfter(h, k, x);
    }
    var t := s + [k];
    assert forall i :: 0 <= i < |s| ==> t[i] == s[i] && t[i] != k;
  }

  /** A `get` hit is an access; a miss leaves the history alone. */
  lemma GetRecords<K(!new), V>(c: Lru<K, V>, h: seq<K>, k: K)
    requires Valid(c)
    requires RecencyOrdered(c.order, h)
    ensures RecencyOrdered(Get(c, k).cache.order, if k in c.entries then h + [k] else h)
  {
    if k in c.entries {
      TouchRecords(c.order, h, k);
    }
  }

  /** A `put` is an access. */
  lemma PutRecords<K(!new), V>(c: Lru<K, V>, h: seq<K>, k: K, v: V)
    requires Valid(c)
    requires RecencyOrdered(c.order, h)
    ensures RecencyOrdered(Put(c, k, v).order, h + [k])
  {
    TouchRecords(c.order, h, k);
    if k in c.entries || |c.order| < c.maxSize {
      PutWithinCapacity(c, k, v);
    } else {
      TrimOverCapacity(c, k, v);
      DropEldestRecords(Stored(c, k, v).order, h + [k]);
    }
  }

  /** Forgetting the eldest key keeps the list ordered. */
  lemma DropEldestRecords<K(!new)>(order: seq<K>, h: seq<K>)
    requires |order| > 0
    requires RecencyOrdered(order, h)
    ensures RecencyOrdered(order[1..], h)
  {
    assert forall i :: 0 <= i < |order| - 1 ==> order[1..][i] == order[i + 1];
  }

  /** When a `put` of a new key overflows a full cache, the one entry evicted is
      the least recently accessed: every other cached key was accessed later,
      and every other mapping survives. */
  lemma PutEvictsLeastRecentlyUsed<K(!new), V>(c: Lru<K, V>, h: seq<K>, k: K, v: V)
    requires Valid(c)
    requires RecencyOrdered(c.order, h)
    requires k !in c.entries && |c.entries| == c.maxSize
    ensures var victim := c.order[0];
      && victim in c.entries
      && victim !in Put(c, k, v).entries
      && forall x :: x in c.entries && x != victim ==>
           x in Put(c, k, v).entries && LastAccess(h, victim) < LastAccess(h, x)
  {
    EntryCount(c);
    var victim := c.order[0];
    forall x | x in c.entries && x != victim
      ensures LastAccess(h, victim) < LastAccess(h, x)
    {
      var j :| 0 <= j < |c.order| && c.order[j] == x;
      assert j != 0;
    }
  }
}

=== FILE: network_utils.dfy ===
/** The network tier: `downloadBitmapFromNetwork` issues a GET for the URL and
    decodes the body. The HTTP exchange is an oracle: the outcome of
    `client.newCall(request).execute()` (a response, or a thrown exception). */
module NetworkUtils {
  import opened Jvm
  import opened Bitmaps

  /** An OkHttp response: status code and (nullable) body bytes. */
  datatype Response = Response(code: int, body: Nullable<Bytes>)

  /** `Response.isSuccessful`: the code is in 200..299. */
  predicate IsSuccessful(code: int) {
    200 <= code <= 299
  }

  /** `downloadBitmapFromNetwork`: a non-2xx response throws an `IOException`
      that the function's own `catch` turns into null, as it does for every
      `IOException` of the call; a missing body or undecodable bytes give
      null; other exceptions are not caught. */
  function DownloadBitmapFromNetwork(call: Outcome<Response>, codec: Codec): (r: Outcome<Nullable<Bitmap>>)
    ensures r != Throws(IOException)
    ensures r.Throws? <==> call.Throws? && call.exception != IOException
    ensures r.Throws? ==> r.exception == call.exception
    ensures call == Throws(IOException) ==> r == Returns(Null)
    ensures call.Returns? && !IsSuccessful(call.value.code) ==> r == Returns(Null)
    ensures call.Returns? && call.value.body.Null? ==> r == Returns(Null)
    ensures IsHit(r) <==>
      && call.Returns? && IsSuccessful(call.value.code) && call.value.body.NonNull?
      && codec.decode(call.value.body.value).NonNull?
    ensures IsHit(r) ==> r.value == codec.decode(call.value.body.value)
  {
    match call
    case Throws(e) => if e == IOException then Returns(Null) else Throws(e)
    case Returns(response) =>
      if !IsSuccessful(response.code) then Returns(Null)
      else if response.body.Null? then Returns(Null)
      else Returns(codec.decode(response.body.value))
  }
}
